=== FILE: README.md ===
# Newsletter delivery core of zero2prod, modelled in Dafny

This project models the decision logic of a newsletter service written in Rust
(actix-web + sqlx + Postgres):

- the **issue delivery worker**: one iteration of `try_execute_task` over the
  `issue_delivery_queue` table, with its retry budget of 5, and the back-off the
  outer `worker_loop` applies;
- **idempotency persistence**: `save_response` flattens a response into a row
  (status as `i16`, a list of header name/bytes pairs, body bytes) and
  `get_saved_response` rebuilds it;
- the two **newsletter publish handlers**: the admin form version (idempotency
  short-circuit, validation, fan-out, save) and the older JSON version (fan-out only);
- **credential validation** (`validate_credentials`, `verify_password_hash`,
  `change_password`, `AuthError`'s response) and the **login** handler's error mapping;
- **subscription confirmation** (`confirm`).

Tables are immutable values: the queue and the idempotency table are maps,
`users` is a map keyed by username, `subscriptions` is a sequence in scan order.
Each handler or worker step is a pure function from the tables and an
environment record to its reply and the tables afterwards. A transaction is an
all-or-nothing update: on every error path the returned table is the old one.

Things the code calls but does not define are parameters:

- `SubscriberEmail::parse` is an `EmailParser` (`string -> Option<SubscriberEmail>`).
- The email client is a `Sender`: it maps each email (recipient, title, HTML body, text body) to whether the send succeeded. In the worker it is one boolean per step.
- `IdempotencyKey::try_from` is a `keyValid` predicate.
- Argon2 verification is a `Verifier` that answers `Matches`, `DoesNotMatch` or `UnparsableHash`.
- The hash `compute_password_hash` produces is an input, `None` meaning it failed.
- Database and task-join failures are booleans in per-call environment records.
- The row the locking `SELECT ... FOR UPDATE SKIP LOCKED` hands out is `StepEnv.claim`. It must be a present row when the queue is non-empty.

Modules: `Results`, `Primitives` (`byte`, `i16`, the `u16`/`i16`
conversions), `Http` (response, status codes, `SeeOther`, flash messages),
`Subscribers`, `DeliveryWorker`, `IdempotencyStore`, `AdminNewsletters`,
`Newsletters`, `Password`, `Login`, `SubscriptionsConfirm`.

Behaviour of the code that the model keeps as it is:

- Idempotency rows have no "in progress" placeholder. Saving is a plain INSERT after a plain lookup, with no transaction around the handler.
- Neither publish handler enqueues delivery tasks. Both send inline.
- The status column is a signed `i16`, written with `as_u16() as i16` and read back through `try_into::<u16>()` and `StatusCode::from_u16`.
- The rules of `IdempotencyKey::try_from` are not part of this model, so key validity is an uninterpreted predicate.

Assumptions:

- The `idempotency` table is taken to be unique on (user_id, idempotency_key); its migration is not part of this model. `SaveResponse` therefore fails when a row already exists.
- `see_other` (in `crate::utils`, not part of this model) is a 303 whose only header is `Location`, with an empty body.
- `increment_retries` finds its row by the *parsed* address's `to_string()`, while `delete_task` uses the raw stored string. `TryExecuteTask` models this as written: the UPDATE targets the row named by the parsed address and changes nothing if there is no such row. The exact per-row properties take the assumption that the parser hands back the stored string (`parse(s) == Some(SubscriberEmail(s))`) as an explicit `requires`. This applies to `FailingTaskCountsUp` and `FailingTaskDroppedAfterBudget`, and to the `r.attempted.value.to.address == env.claim.email` case of `TryExecuteTask`.

## Model

| member | source | states |
|---|---|---|
| DeliveryWorker.DequeueTask | src/issue_delivery_worker.rs:83-108 | A claimed task is a row present in the queue; `None` exactly when the query succeeds on an empty queue; an error exactly when opening the transaction or the query fails |
| DeliveryWorker.DeleteTask | src/issue_delivery_worker.rs:114-131 | On commit the claimed key is gone, every other row keeps its counter, no row is added; a failed DELETE or commit is an error |
| DeliveryWorker.IncrementRetries | src/issue_delivery_worker.rs:160-180 | On commit the row keyed by (issue, address) holds `n_retries + 1` if it exists; every other row and the key set are unchanged |
| DeliveryWorker.TryExecuteTask | src/issue_delivery_worker.rs:29-78 | Empty queue gives `EmptyQueue` with the queue unchanged; a failed dequeue, issue fetch, or resolving statement or commit is an error and leaves the queue unchanged; an unparsable address is deleted with no send; a send is attempted only after a parse and issue fetch; success deletes exactly the claimed row; failure below 5 counts one retry on the claimed row and changes nothing else; failure at 5 or more deletes it; no task is ever added and no counter rises past 5 |
| DeliveryWorker.BackoffSecs | src/issue_delivery_worker.rs:182-194 | The loop sleeps 1 s after an error, 10 s after an empty queue, and not at all after a completed task |
| DeliveryWorker.FailingTaskCountsUp | src/issue_delivery_worker.rs:50-54 | A task whose sends keep failing gains exactly one retry per iteration while at or below the budget, and no other task changes |
| DeliveryWorker.FailingTaskDroppedAfterBudget | src/issue_delivery_worker.rs:50-73 | A task at n <= 5 whose sends keep failing is removed after exactly 6 - n iterations (0,1,2,3,4,5, then gone) and the rest of the queue is as before |
| IdempotencyStore.StatusToI16 | src/idempotency/persistence.rs:54 | Every status code 100..999 written as `i16` reads back as the same status |
| IdempotencyStore.StatusFromI16 | src/idempotency/persistence.rs:35 | A stored status decodes exactly when it lies in 100..999, to the same number; a negative stored value is an error |
| IdempotencyStore.AppendHeaders | src/idempotency/persistence.rs:37-39 | Replaying stored pairs keeps the headers already on the builder and appends one header per pair, name and bytes kept, in stored order |
| IdempotencyStore.EncodeResponse | src/idempotency/persistence.rs:52-62 | The row written for a response stores its status as the same number, which reads back as that status; one pair per header in list order with name and value bytes kept; the body verbatim |
| IdempotencyStore.DecodeRow | src/idempotency/persistence.rs:34-40 | A row rebuilds exactly when its status lies in 100..999, with that status, its body, and one header per stored pair in order; otherwise the conversion's error (`NegativeStatusCode` for a negative value, `InvalidStatusCode` else) |
| IdempotencyStore.ReplayFlattened | src/idempotency/persistence.rs:55-62 | Flattening a header list and replaying it with `append_header` reproduces the same list, order and repeated names included, with headers taken as a list (see Left out) |
| IdempotencyStore.FlattenReplayed | src/idempotency/persistence.rs:37-39 | Replaying stored pairs and flattening the result gives back the stored pairs |
| IdempotencyStore.SaveThenLoad | src/idempotency/persistence.rs:35-62 | Decoding the row written for a response gives back the same status, headers and body |
| IdempotencyStore.LoadThenSave | src/idempotency/persistence.rs:35-40 | A row that decodes re-encodes to the identical row, with headers taken as a list (see Left out) |
| IdempotencyStore.GetSavedResponse | src/idempotency/persistence.rs:13-43 | No row for (user_id, key) gives `None`; a row whose status is in 100..999 gives `Some`; a returned response is exactly what the stored row encodes; an error without a query failure means the stored status is outside 100..999, and such a row is always an error (`NegativeStatusCode` when negative, `InvalidStatusCode` otherwise), never `None` |
| IdempotencyStore.SaveResponse | src/idempotency/persistence.rs:46-86 | Success hands back the input response unchanged, and a later lookup of (user_id, key) returns it; failure leaves the table as it was; lookups of every other pair are unaffected |
| Subscribers.ConfirmedEmails | src/routes/admin/newsletters/post.rs:94-97 | The query returns the email of every confirmed row and only of confirmed rows, never more entries than rows |
| Subscribers.ConfirmedEmailsAppend | src/routes/newsletters.rs:51-53 | The confirmed-subscriber query keeps table order: it distributes over concatenation of row sequences |
| Subscribers.GetConfirmedSubscribers | src/routes/admin/newsletters/post.rs:91-108 | A failed query is an error; otherwise each confirmed row maps to exactly one parse result, same count, same order |
| Subscribers.Deliverable | src/routes/newsletters.rs:38-41 | The addresses sent to are exactly those that parsed; unparsable entries are skipped; an empty list gives none and a single entry gives its address exactly when it parsed |
| Subscribers.DeliverableAppend | src/routes/admin/newsletters/post.rs:56-68 | Skipping unparsed entries distributes over concatenation, so the parsed addresses keep row order and repeats |
| Subscribers.SendLoop | src/routes/admin/newsletters/post.rs:56-68 | The emails tried are a prefix of the list in order; every one before the last was accepted; all were tried when none failed; the loop stops right after the first refused email; it fails exactly when some email of the list is refused |
| Subscribers.FanOut | src/routes/admin/newsletters/post.rs:56-68 | The emails tried carry the request's title, HTML and text and go to a prefix of the parsed addresses in order; every email before the last one succeeded; all were tried when none failed; the loop stops right after the first failed send; it fails exactly when some parsed address's send fails |
| AdminNewsletters.ValidateNewsletter | src/routes/admin/newsletters/post.rs:78-88 | Ok exactly when title, html and text are all non-empty; otherwise the first empty field in the order title, html, text names the message |
| AdminNewsletters.PublishNewsletter | src/routes/admin/newsletters/post.rs:24-76 | Invalid key gives 400 with nothing else done; a saved response is returned verbatim with the published flash and no validation, send or save; lookup failure gives 500 with no send; emails go to parsed confirmed addresses in order and carry the form's title, HTML and text; every email before the last one attempted succeeded; the table changes only by gaining the 303 under (user_id, key), and only when every email was sent |
| AdminNewsletters.FreshRequestOutcomes | src/routes/admin/newsletters/post.rs:46-75 | For a valid key with nothing saved: a validation failure gives a 303 to /admin/newsletters with the message, no send and no save; a subscriber query failure gives 500 before any send; a failed send ends the loop with 500 and nothing saved; a failed save after all sends gives 500 with the table unchanged; full success sends to every parsed confirmed address, saves and returns the 303 under (user_id, key) |
| AdminNewsletters.SendAndSave | src/routes/admin/newsletters/post.rs:56-75 | Over the parsed subscribers: a refused email gives 500 with no flash and nothing saved; once all are sent, a failed INSERT (a database error, or a row already stored under (user_id, key), as for the second of two concurrent requests with one key) gives 500 with the published flash queued and the table unchanged, and otherwise the 303 is saved under (user_id, key) and returned |
| AdminNewsletters.AdminAndJsonSendAlike | src/routes/admin/newsletters/post.rs:54-68 | Over the same rows, parser and email client, a fresh valid admin request and the JSON handler send the same emails in the same order; when the JSON handler fails the admin one answers 500 and saves nothing; otherwise the admin one redirects, or answers 500 when saving fails |
| AdminNewsletters.ResubmissionReplaysResponse | src/routes/admin/newsletters/post.rs:36-75 | Once a request has stored its response, a resubmission with the same key and user gets the identical response, sends nothing and leaves the table unchanged |
| Newsletters.PublishNewsletter | src/routes/newsletters.rs:23-46 | A failed subscriber query is an error before any send; emails go to parsed confirmed addresses in order, skipping unparsable ones, and carry the body's title, HTML and text; every email before the last one attempted succeeded, so the loop stops at the first failure; the reply is 200 exactly when every send succeeds; every error is `UnexpectedError`, whose status is 500; a failure stops at the failed send |
| Password.GetStoredCredentials | src/authentication/password.rs:49-63 | A failed query is `UnexpectedError`; otherwise the stored id and hash exactly when the username exists |
| Password.VerifyPasswordHash | src/authentication/password.rs:69-84 | Ok exactly when the password matches; an unparsable hash is `UnexpectedError`; a mismatch is `InvalidCredentials` |
| Password.ValidateCredentials | src/authentication/password.rs:20-46 | Ok(id) exactly when the username exists and verification against its hash succeeds; once the query succeeds verification is started exactly once, against the fallback hash for an unknown user; an unknown user is `InvalidCredentials` even if the fallback verifies; a known user with a wrong password is `InvalidCredentials`; an unparsable stored hash or a query failure is `UnexpectedError` |
| Password.ChangedPasswordIsTheOneChecked | src/authentication/password.rs:97-116 | After a successful password change, that user's credentials validate exactly when the new hash verifies the password, and every other user validates as before |
| Password.AuthErrorResponse | src/authentication/password.rs:146-159 | `UnexpectedError` is a bare 500; `InvalidCredentials` is a 401 whose only header is `WWW-Authenticate: Basic realm="publish"` |
| Password.ChangePassword | src/authentication/password.rs:97-116 | A hashing failure returns an error before the UPDATE is issued; on success exactly the rows of that user id get the new hash and nothing else changes; any failure leaves the table unchanged |
| Login.HandleLogin | src/routes/login/post.rs:15-49 | Login succeeds exactly when the user exists and the password verifies, with a 303 to "/"; every failure is a 303 to "/login" with the flash message "Authentication failed" for invalid credentials and "Something went wrong" for unexpected errors |
| SubscriptionsConfirm.GetSubscriberIdFromToken | src/routes/subscriptions_confirm.rs:29-47 | A failed query is an error; otherwise the token's subscriber id exactly when the token is known |
| SubscriptionsConfirm.ConfirmSubscriber | src/routes/subscriptions_confirm.rs:50-64 | On success the rows with that id become confirmed with id and email kept, and every other row is unchanged |
| SubscriptionsConfirm.Confirm | src/routes/subscriptions_confirm.rs:11-26 | No token parameter is the query extractor's rejection with status 400; lookup failure gives 500; an unknown token gives 401; an update failure gives 500; none of these changes the table; a known token gives 200 and confirms exactly that subscriber |
| SubscriptionsConfirm.ConfirmTwice | src/routes/subscriptions_confirm.rs:50-57 | Confirming again with the same token answers 200 again and leaves the table as the first confirmation left it |

## Left out

- Database, HTTP, async runtime and tracing machinery. Tables are values, transactions are all-or-nothing updates, and log lines are not modelled.
- Multi-worker concurrency and row locking (`FOR UPDATE SKIP LOCKED`). The claimed row is an arbitrary present row supplied by the environment.
- `worker_loop` runs forever and really sleeps. `BackoffSecs` gives only the chosen durations, and `run_worker_until_stopped` is configuration plumbing.
- The rules of `SubscriberEmail::parse` and `IdempotencyKey::try_from`, the email transport, and Argon2 hashing and verification. Their code is not part of this model or is foreign cryptography, so they are oracles.
- `compute_password_hash`: its random salt makes the produced hash an input.
- `get_username`: a plain lookup that no modelled operation uses.
- Header name/value validation in `append_header`.
- IdempotencyStore.ReplayFlattened: headers are a plain list in the model, while actix's `HeaderMap` groups values by name and iterates names in arbitrary order. In the source only each name's values keep their relative order, so a stored list whose names interleave (a, b, a) comes back grouped.
- IdempotencyStore.LoadThenSave: for the same reason, a stored row whose header names interleave does not re-encode to the identical row in the source; it does in the list model.
- Failure of `to_bytes`: bodies are already byte sequences in the model.
- The delivery of flash messages through cookies. Only the message queued is modelled.
- Request extractors' rejection of malformed form or JSON bodies. The missing `subscription_token` parameter is the exception and is modelled as a rejection with status 400.
- The headers and body of actix's default error response. The query extractor's rejection in `confirm`, `PublishError` (which overrides only `status_code`), `e400` and `e500` are modelled by their status alone. The handlers' own `...().finish()` replies are modelled exactly: no headers and an empty body.
- Ids (`Uuid`) are natural numbers.
- HTML pages (the newsletter form and the dashboard), `main.rs`, the authentication module's re-exports and middleware, and the older duplicate `src/authentication.rs`.

=== FILE: admin_newsletters.dfy ===
/**
  * The admin form's `publish_newsletter`: idempotency short-circuit,
  * validation, fan-out to confirmed subscribers, and saving the response.
  */
module AdminNewsletters {

  import opened Results
  import opened Http
  import opened Subscribers
  import opened IdempotencyStore
  import Newsletters

  datatype FormData = FormData(title: string, htmlContent: string, textContent: string, idempotencyKey: string)

  /** Which database calls fail during one request. */
  datatype PublishEnv = PublishEnv(lookupFails: bool, queryFails: bool, saveFails: bool)

  /** The reply, the emails handed to the email client, the idempotency table afterwards, and the flash message queued. */
  datatype PublishOutcome = PublishOutcome(
    reply: Result<Response, HandlerError>,
    attempted: seq<Delivery>,
    store: Table,
    flash: Option<Flash>)

  const NEWSLETTERS_PAGE: string := "/admin/newsletters"
  const PUBLISHED_MESSAGE: string := "The newsletter issue has been published!"
  const TITLE_EMPTY: string := "Title must not be empty"
  const HTML_EMPTY: string := "HTML content must not be empty"
  const TEXT_EMPTY: string := "Text content must not be empty"

  /** The emails this form would send over these rows. */
  function Mailing(form: FormData, rows: seq<Subscription>, parse: EmailParser): (ds: seq<Delivery>)
  {
    IssueDeliveries(rows, parse, form.title, form.htmlContent, form.textContent)
  }

  /** `validate_newsletter`: title, then html, then text; the first empty field names the error. */
  function ValidateNewsletter(title: string, html: string, text: string): (r: Result<(), string>)
    ensures r.Ok? <==> title != [] && html != [] && text != []
    ensures title == [] ==> r == Err(TITLE_EMPTY)
    ensures title != [] && html == [] ==> r == Err(HTML_EMPTY)
    ensures title != [] && html != [] && text == [] ==> r == Err(TEXT_EMPTY)
  {
    if |title| == 0 then Err(TITLE_EMPTY)
    else if |html| == 0 then Err(HTML_EMPTY)
    else if |text| == 0 then Err(TEXT_EMPTY)
    else Ok(())
  }

  /**
    * The send loop over the parsed subscribers, then, when every send
    * succeeded, saving the 303 under (user_id, key).
    */
  function SendAndSave(form: FormData, userId: UserId, store: Table, subs: seq<Option<SubscriberEmail>>, send: Sender, saveFails: bool)
    : (r: PublishOutcome)
    ensures r.store == store || r.store == store[RowKey(userId, form.idempotencyKey) := EncodeResponse(SeeOther(NEWSLETTERS_PAGE))]
    ensures r.store != store ==>
              r.reply == Ok(SeeOther(NEWSLETTERS_PAGE))
              && r.attempted == Addressed(Deliverable(subs), form.title, form.htmlContent, form.textContent)
              && AllSent(r.attempted, send)
    ensures r.attempted <= Addressed(Deliverable(subs), form.title, form.htmlContent, form.textContent)
    ensures SentBeforeLast(r.attempted, send)
    ensures (!AllSent(Addressed(Deliverable(subs), form.title, form.htmlContent, form.textContent), send))
              ==> r.reply == Err(HandlerError(INTERNAL_SERVER_ERROR)) && r.store == store && r.flash == None
                  && |r.attempted| > 0 && !send(r.attempted[|r.attempted| - 1])
    // The INSERT fails, on a database error or because (user_id, key) already has a row.
    ensures (AllSent(Addressed(Deliverable(subs), form.title, form.htmlContent, form.textContent), send)
             && (saveFails || RowKey(userId, form.idempotencyKey) in store))
              ==> r == PublishOutcome(Err(HandlerError(INTERNAL_SERVER_ERROR)),
                                      Addressed(Deliverable(subs), form.title, form.htmlContent, form.textContent), store,
                                      Some(FlashInfo(PUBLISHED_MESSAGE)))
    ensures (AllSent(Addressed(Deliverable(subs), form.title, form.htmlContent, form.textContent), send)
             && !saveFails && RowKey(userId, form.idempotencyKey) !in store)
              ==> r == PublishOutcome(Ok(SeeOther(NEWSLETTERS_PAGE)),
                                      Addressed(Deliverable(subs), form.title, form.htmlContent, form.textContent),
                                      store[RowKey(userId, form.idempotencyKey) := EncodeResponse(SeeOther(NEWSLETTERS_PAGE))],
                                      Some(FlashInfo(PUBLISHED_MESSAGE)))
  {
    var sent := FanOut(subs, form.title, form.htmlContent, form.textContent, send);
    if sent.failed then PublishOutcome(Err(HandlerError(INTERNAL_SERVER_ERROR)), sent.attempted, store, None)
    else
      var saved := SaveResponse(store, userId, form.idempotencyKey, SeeOther(NEWSLETTERS_PAGE), saveFails);
      match saved.result
      case Err(_) =>
        PublishOutcome(Err(HandlerError(INTERNAL_SERVER_ERROR)), sent.attempted, store, Some(FlashInfo(PUBLISHED_MESSAGE)))
      case Ok(resp) => PublishOutcome(Ok(resp), sent.attempted, saved.table, Some(FlashInfo(PUBLISHED_MESSAGE)))
  }

  /**
    * `publish_newsletter`. `keyValid` stands for `IdempotencyKey::try_from`
    * and `send` for the email client, both outside this model.
    */
  function PublishNewsletter(
    form: FormData, userId: UserId, store: Table, rows: seq<Subscription>,
    keyValid: string -> bool, parse: EmailParser, send: Sender, env: PublishEnv)
    : (r: PublishOutcome)
    // The table only ever gains the encoded 303 under this request's key, and only on full success.
    ensures r.store == store || r.store == store[RowKey(userId, form.idempotencyKey) := EncodeResponse(SeeOther(NEWSLETTERS_PAGE))]
    ensures r.store != store ==>
              r.reply == Ok(SeeOther(NEWSLETTERS_PAGE)) && r.attempted == Mailing(form, rows, parse)
              && AllSent(r.attempted, send)
    // Emails only go to parsed confirmed addresses, in row order, carrying the form's title and content.
    ensures r.attempted <= Mailing(form, rows, parse)
    // Every email before the last one attempted was sent successfully: the loop stops at the first failure.
    ensures SentBeforeLast(r.attempted, send)
    // An invalid key is rejected before anything else happens.
    ensures !keyValid(form.idempotencyKey) ==>
              r == PublishOutcome(Err(HandlerError(BAD_REQUEST)), [], store, None)
    // A saved response is replayed verbatim: no validation, no send, no save.
    ensures (keyValid(form.idempotencyKey) && GetSavedResponse(store, userId, form.idempotencyKey, env.lookupFails).Ok?
             && GetSavedResponse(store, userId, form.idempotencyKey, env.lookupFails).value.Some?)
              ==> r == PublishOutcome(Ok(GetSavedResponse(store, userId, form.idempotencyKey, env.lookupFails).value.value),
                                      [], store, Some(FlashInfo(PUBLISHED_MESSAGE)))
    ensures (keyValid(form.idempotencyKey) && GetSavedResponse(store, userId, form.idempotencyKey, env.lookupFails).Err?)
              ==> r.reply == Err(HandlerError(INTERNAL_SERVER_ERROR)) && r.attempted == [] && r.store == store
  {
    var key := form.idempotencyKey;
    if !keyValid(key) then PublishOutcome(Err(HandlerError(BAD_REQUEST)), [], store, None)
    else
      match GetSavedResponse(store, userId, key, env.lookupFails)
      case Err(_) => PublishOutcome(Err(HandlerError(INTERNAL_SERVER_ERROR)), [], store, None)
      case Ok(Some(saved)) => PublishOutcome(Ok(saved), [], store, Some(FlashInfo(PUBLISHED_MESSAGE)))
      case Ok(None) =>
        match ValidateNewsletter(form.title, form.htmlContent, form.textContent)
        case Err(message) => PublishOutcome(Ok(SeeOther(NEWSLETTERS_PAGE)), [], store, Some(FlashError(message)))
        case Ok(_) =>
          match GetConfirmedSubscribers(rows, parse, env.queryFails)
          case Err(_) => PublishOutcome(Err(HandlerError(INTERNAL_SERVER_ERROR)), [], store, None)
          case Ok(subs) =>
            assert Deliverable(subs) == Recipients(rows, parse);
            SendAndSave(form, userId, store, subs, send, env.saveFails)
  }

  /**
    * A fresh request (valid key, nothing saved under it): validation, the
    * subscriber query, the send loop and the save decide the outcome.
    */
  lemma FreshRequestOutcomes(
    form: FormData, userId: UserId, store: Table, rows: seq<Subscription>,
    keyValid: string -> bool, parse: EmailParser, send: Sender, env: PublishEnv)
    requires keyValid(form.idempotencyKey)
    requires GetSavedResponse(store, userId, form.idempotencyKey, env.lookupFails) == Ok(None)
    // An invalid newsletter: redirect back with the validation message, nothing sent or saved.
    ensures ValidateNewsletter(form.title, form.htmlContent, form.textContent).Err? ==>
              PublishNewsletter(form, userId, store, rows, keyValid, parse, send, env)
              == PublishOutcome(Ok(SeeOther(NEWSLETTERS_PAGE)), [], store,
                                Some(FlashError(ValidateNewsletter(form.title, form.htmlContent, form.textContent).error)))
    // The subscriber query fails: 500 before any send.
    ensures ValidateNewsletter(form.title, form.htmlContent, form.textContent).Ok? && env.queryFails ==>
              PublishNewsletter(form, userId, store, rows, keyValid, parse, send, env)
              == PublishOutcome(Err(HandlerError(INTERNAL_SERVER_ERROR)), [], store, None)
    // Some send fails: the loop stops there with a 500 and nothing is saved.
    ensures (ValidateNewsletter(form.title, form.htmlContent, form.textContent).Ok? && !env.queryFails
             && !AllSent(Mailing(form, rows, parse), send))
              ==> var r := PublishNewsletter(form, userId, store, rows, keyValid, parse, send, env);
                  r.reply == Err(HandlerError(INTERNAL_SERVER_ERROR)) && r.store == store
                  && |r.attempted| > 0 && !send(r.attempted[|r.attempted| - 1])
    // Every send succeeded but saving failed: 500, the sends stay done, the table is unchanged.
    ensures (ValidateNewsletter(form.title, form.htmlContent, form.textContent).Ok? && !env.queryFails
             && AllSent(Mailing(form, rows, parse), send) && env.saveFails)
              ==> PublishNewsletter(form, userId, store, rows, keyValid, parse, send, env)
                  == PublishOutcome(Err(HandlerError(INTERNAL_SERVER_ERROR)), Mailing(form, rows, parse), store,
                                    Some(FlashInfo(PUBLISHED_MESSAGE)))
    // Full success: every recipient sent to, the 303 saved under (user_id, key) and returned.
    ensures (ValidateNewsletter(form.title, form.htmlContent, form.textContent).Ok? && !env.queryFails
             && AllSent(Mailing(form, rows, parse), send) && !env.saveFails)
              ==> PublishNewsletter(form, userId, store, rows, keyValid, parse, send, env)
                  == PublishOutcome(Ok(SeeOther(NEWSLETTERS_PAGE)), Mailing(form, rows, parse),
                                    store[RowKey(userId, form.idempotencyKey) := EncodeResponse(SeeOther(NEWSLETTERS_PAGE))],
                                    Some(FlashInfo(PUBLISHED_MESSAGE)))
  {
    if ValidateNewsletter(form.title, form.htmlContent, form.textContent).Ok? && !env.queryFails {
      var subs := GetConfirmedSubscribers(rows, parse, env.queryFails).value;
      assert Deliverable(subs) == Recipients(rows, parse);
    }
  }

  /**
    * Idempotency: once a request has stored its response, a resubmission with
    * the same key (whatever its other fields) gets that same response back,
    * sends nothing and leaves the table as it is.
    */
  lemma ResubmissionReplaysResponse(
    form: FormData, userId: UserId, store: Table, rows: seq<Subscription>,
    keyValid: string -> bool, parse: EmailParser, send: Sender, env: PublishEnv,
    form2: FormData, rows2: seq<Subscription>, send2: Sender, env2: PublishEnv)
    requires form2.idempotencyKey == form.idempotencyKey && !env2.lookupFails
    requires PublishNewsletter(form, userId, store, rows, keyValid, parse, send, env).reply.Ok?
    requires RowKey(userId, form.idempotencyKey) in PublishNewsletter(form, userId, store, rows, keyValid, parse, send, env).store
    ensures var first := PublishNewsletter(form, userId, store, rows, keyValid, parse, send, env);
            var second := PublishNewsletter(form2, userId, first.store, rows2, keyValid, parse, send2, env2);
            second.reply == first.reply && second.attempted == [] && second.store == first.store
  {
  }

  /**
    * A fresh, valid admin request and the JSON handler, given the same rows,
    * parser, email client and issue, hand the same emails to the client in
    * the same order and stop on the same failed send.
    */
  lemma AdminAndJsonSendAlike(
    form: FormData, userId: UserId, store: Table, rows: seq<Subscription>,
    keyValid: string -> bool, parse: EmailParser, send: Sender, env: PublishEnv)
    requires keyValid(form.idempotencyKey)
    requires GetSavedResponse(store, userId, form.idempotencyKey, env.lookupFails) == Ok(None)
    requires ValidateNewsletter(form.title, form.htmlContent, form.textContent).Ok?
    ensures var admin := PublishNewsletter(form, userId, store, rows, keyValid, parse, send, env);
            var json := Newsletters.PublishNewsletter(
                          Newsletters.BodyData(form.title, form.htmlContent, form.textContent), rows, parse, send, env.queryFails);
            admin.attempted == json.attempted
            && (json.reply.Err? ==> admin.reply == Err(HandlerError(INTERNAL_SERVER_ERROR)) && admin.store == store)
            && (json.reply.Ok? ==> admin.reply == (if env.saveFails then Err(HandlerError(INTERNAL_SERVER_ERROR))
                                                   else Ok(SeeOther(NEWSLETTERS_PAGE))))
  {
  }
}

=== FILE: delivery_worker.dfy ===
/**
  * The issue delivery worker: one iteration of `try_execute_task` over the
  * `issue_delivery_queue` table, and the back-off the outer loop applies.
  */
module DeliveryWorker {

  import opened Results
  import opened Primitives
  import opened Subscribers

  type IssueId = nat

  /** The queue's key: one pending delivery of one issue to one stored address. */
  datatype TaskKey = TaskKey(issueId: IssueId, email: string)

  /** `issue_delivery_queue`: pending tasks and their `n_retries`. */
  type Queue = map<TaskKey, i16>

  /** The columns of `newsletter_issues` the worker reads. */
  datatype NewsletterIssue = NewsletterIssue(title: string, textContent: string, htmlContent: string)

  type Issues = map<IssueId, NewsletterIssue>

  /** Failed sends are retried while `n_retries` is below this bound. */
  const MAX_RETRIES: i16 := 5

  /** Seconds the loop sleeps after an error, and after finding the queue empty. */
  const ERROR_BACKOFF_SECS: nat := 1
  const EMPTY_QUEUE_BACKOFF_SECS: nat := 10

  datatype ExecutionOutcome = TaskCompleted | EmptyQueue

  /** The infrastructure errors that abort an iteration before its transaction commits. */
  datatype Fault = DequeueFailed | IssueFetchFailed | ResolveFailed

  /**
    * What the world answers during one iteration: whether opening the
    * transaction or the `SELECT ... FOR UPDATE SKIP LOCKED` fails, which row
    * that query hands out, whether `get_issue` fails, whether the send
    * succeeds, and whether the resolving statement or its commit fails.
    */
  datatype StepEnv = StepEnv(
    dequeueFails: bool,
    claim: TaskKey,
    issueFetchFails: bool,
    sendSucceeds: bool,
    resolveFails: bool)

  /** The queue after the iteration (unchanged unless it committed) and the send it attempted. */
  datatype StepResult = StepResult(outcome: Result<ExecutionOutcome, Fault>, queue: Queue, attempted: Option<Delivery>)

  /** The locking query can only hand out a row that is in the table. */
  predicate ClaimValid(q: Queue, env: StepEnv)
  {
    q == map[] || env.claim in q
  }

  /** No task's retry counter is above the budget. */
  ghost predicate WithinBudget(q: Queue)
  {
    forall k :: k in q ==> q[k] <= MAX_RETRIES
  }

  /** The row `increment_retries` targets for a claimed task: keyed by the parsed address. */
  predicate IsRetryRow(k: TaskKey, claim: TaskKey, parse: EmailParser)
  {
    parse(claim.email).Some? && k == TaskKey(claim.issueId, parse(claim.email).value.address)
  }

  /** `dequeue_task`: some present task, or none when the table is empty. */
  function DequeueTask(q: Queue, env: StepEnv): (r: Result<Option<TaskKey>, Fault>)
    requires ClaimValid(q, env)
    ensures r.Ok? && r.value.Some? ==> r.value.value in q
    ensures r == Ok(None) <==> !env.dequeueFails && q == map[]
    ensures r.Err? <==> env.dequeueFails
  {
    if env.dequeueFails then Err(DequeueFailed)
    else if q == map[] then Ok(None)
    else Ok(Some(env.claim))
  }

  /** `delete_task`: removes the row with this key and commits. */
  function DeleteTask(q: Queue, key: TaskKey, fails: bool): (r: Result<Queue, Fault>)
    ensures r.Ok? <==> !fails
    ensures r.Ok? ==> key !in r.value && r.value.Keys == q.Keys - {key}
    ensures r.Ok? ==> forall k :: k in r.value ==> r.value[k] == q[k]
  {
    if fails then Err(ResolveFailed) else Ok(q - {key})
  }

  /**
    * `increment_retries`: sets the row keyed by (issue, address) to
    * `nRetries + 1` and commits; an UPDATE that matches no row changes nothing.
    */
  function IncrementRetries(q: Queue, issueId: IssueId, address: string, nRetries: i16, fails: bool)
    : (r: Result<Queue, Fault>)
    requires nRetries < 0x7fff
    ensures r.Ok? <==> !fails
    ensures r.Ok? ==> r.value.Keys == q.Keys
    ensures r.Ok? ==> forall k :: k in q && k != TaskKey(issueId, address) ==> r.value[k] == q[k]
    ensures r.Ok? && TaskKey(issueId, address) in q ==> r.value[TaskKey(issueId, address)] == nRetries + 1
  {
    var key := TaskKey(issueId, address);
    if fails then Err(ResolveFailed)
    else if key in q then Ok(q[key := nRetries + 1])
    else Ok(q)
  }

  /** Commit point of an iteration: the new queue on success, the old one on error. */
  function Resolve(q: Queue, resolved: Result<Queue, Fault>, attempted: Option<Delivery>): (r: StepResult)
  {
    match resolved
    case Ok(q') => StepResult(Ok(TaskCompleted), q', attempted)
    case Err(f) => StepResult(Err(f), q, attempted)
  }

  /**
    * `try_execute_task`: claim a task; drop it if its address does not
    * parse; otherwise fetch the issue and send it, then delete the task on
    * success, count a retry on failure while the budget lasts, and delete it
    * once the budget is spent.
    */
  function TryExecuteTask(q: Queue, issues: Issues, parse: EmailParser, env: StepEnv): (r: StepResult)
    requires ClaimValid(q, env)
    // An error means the transaction never committed.
    ensures r.outcome.Err? ==> r.queue == q
    ensures r.outcome == Ok(EmptyQueue) <==> !env.dequeueFails && q == map[]
    ensures r.outcome == Ok(EmptyQueue) ==> r.queue == q && r.attempted == None
    ensures env.dequeueFails ==> r.outcome == Err(DequeueFailed) && r.attempted == None
    // An iteration never adds a task and never pushes a counter past the budget.
    ensures r.queue.Keys <= q.Keys
    ensures WithinBudget(q) ==> WithinBudget(r.queue)
    // Only the claimed task, or the row its parsed address names, can change.
    ensures forall k :: k in r.queue && k != env.claim && !IsRetryRow(k, env.claim, parse) ==> r.queue[k] == q[k]
    // A stored address that does not parse: deleted, nothing sent, nothing counted.
    ensures (!env.dequeueFails && q != map[] && parse(env.claim.email).None? && !env.resolveFails)
              ==> r == StepResult(Ok(TaskCompleted), q - {env.claim}, None)
    // A send is attempted exactly when the address parsed and the issue was fetched.
    ensures r.attempted.Some? <==>
              (!env.dequeueFails && q != map[] && parse(env.claim.email).Some?
                    && !env.issueFetchFails && env.claim.issueId in issues)
    ensures r.attempted.Some? ==> r.attempted.value == Attempt(env.claim, issues, parse)
    // A successful send deletes exactly the claimed row.
    ensures (r.attempted.Some? && env.sendSucceeds && !env.resolveFails)
              ==> r.outcome == Ok(TaskCompleted) && r.queue == q - {env.claim}
    // A failed send within budget counts one more retry on the row its parsed address names.
    ensures (r.attempted.Some? && !env.sendSucceeds && q[env.claim] < MAX_RETRIES && !env.resolveFails)
              ==> (r.outcome == Ok(TaskCompleted)
                   && r.queue == IncrementRetries(q, env.claim.issueId, r.attempted.value.to.address, q[env.claim], false).value)
    // When the parser hands back the stored string, that row is the claimed one.
    ensures (r.attempted.Some? && !env.sendSucceeds && q[env.claim] < MAX_RETRIES && !env.resolveFails
             && r.attempted.value.to.address == env.claim.email)
              ==> r.queue == q[env.claim := q[env.claim] + 1]
    // A failed send with the budget spent deletes the task.
    ensures (r.attempted.Some? && !env.sendSucceeds && q[env.claim] >= MAX_RETRIES && !env.resolveFails)
              ==> r.outcome == Ok(TaskCompleted) && r.queue == q - {env.claim}
    // A failed issue fetch, or a failed resolving statement or commit, is an error that commits nothing.
    ensures (!env.dequeueFails && q != map[] && parse(env.claim.email).Some?
             && (env.issueFetchFails || env.claim.issueId !in issues))
              ==> r == StepResult(Err(IssueFetchFailed), q, None)
    ensures (!env.dequeueFails && q != map[] && env.resolveFails
             && (parse(env.claim.email).None? || r.attempted.Some?))
              ==> r.outcome == Err(ResolveFailed) && r.queue == q
  {
    match DequeueTask(q, env)
    case Err(f) => StepResult(Err(f), q, None)
    case Ok(None) => StepResult(Ok(EmptyQueue), q, None)
    case Ok(Some(key)) =>
      var nRetries := q[key];
      match parse(key.email)
      case None => Resolve(q, DeleteTask(q, key, env.resolveFails), None)
      case Some(email) =>
        if env.issueFetchFails || key.issueId !in issues then StepResult(Err(IssueFetchFailed), q, None)
        else
          var issue := issues[key.issueId];
          var sent := Some(Delivery(email, issue.title, issue.htmlContent, issue.textContent));
          if env.sendSucceeds then Resolve(q, DeleteTask(q, key, env.resolveFails), sent)
          else if nRetries < MAX_RETRIES then
            Resolve(q, IncrementRetries(q, key.issueId, email.address, nRetries, env.resolveFails), sent)
          else Resolve(q, DeleteTask(q, key, env.resolveFails), sent)
  }

  /** The email sent for a claimed task whose address parses and whose issue exists. */
  function Attempt(key: TaskKey, issues: Issues, parse: EmailParser): (d: Delivery)
    requires parse(key.email).Some? && key.issueId in issues
  {
    var issue := issues[key.issueId];
    Delivery(parse(key.email).value, issue.title, issue.htmlContent, issue.textContent)
  }

  /** `worker_loop`: how long to sleep after an iteration with this outcome. */
  function BackoffSecs(outcome: Result<ExecutionOutcome, Fault>): (secs: nat)
    ensures secs == 0 <==> outcome == Ok(TaskCompleted)
    ensures outcome.Err? ==> secs == ERROR_BACKOFF_SECS
    ensures outcome == Ok(EmptyQueue) ==> secs == EMPTY_QUEUE_BACKOFF_SECS
  {
    match outcome
    case Err(_) => ERROR_BACKOFF_SECS
    case Ok(EmptyQueue) => EMPTY_QUEUE_BACKOFF_SECS
    case Ok(TaskCompleted) => 0
  }

  /** An iteration that claims `key`, fetches its issue, and whose send fails. */
  function FailingSend(key: TaskKey): (env: StepEnv)
  {
    StepEnv(false, key, false, false, false)
  }

  /** `count` iterations of the loop that all claim `key` and all fail to send (stopping once it is gone). */
  function RepeatFailing(q: Queue, issues: Issues, parse: EmailParser, key: TaskKey, count: nat): (q': Queue)
    decreases count
  {
    if count == 0 || key !in q then q
    else RepeatFailing(TryExecuteTask(q, issues, parse, FailingSend(key)).queue, issues, parse, key, count - 1)
  }

  /**
    * A task whose sends keep failing counts up one retry per iteration while
    * below the budget, and no other task changes.
    */
  lemma {:induction false} FailingTaskCountsUp(q: Queue, issues: Issues, parse: EmailParser, key: TaskKey, count: nat)
    requires key in q && q[key] as int + count <= MAX_RETRIES as int
    requires parse(key.email) == Some(SubscriberEmail(key.email)) && key.issueId in issues
    ensures var q' := RepeatFailing(q, issues, parse, key, count);
            key in q' && q'[key] as int == q[key] as int + count && q' - {key} == q - {key}
    decreases count
  {
    if count > 0 {
      var q1 := TryExecuteTask(q, issues, parse, FailingSend(key)).queue;
      assert q1 == q[key := q[key] + 1];
      assert q1 - {key} == q - {key};
      FailingTaskCountsUp(q1, issues, parse, key, count - 1);
    }
  }

  /**
    * The retry budget: a task at `n <= 5` whose sends keep failing is removed
    * after exactly `6 - n` iterations (0,1,2,3,4,5 then gone from 0), and no
    * other task changes.
    */
  lemma {:induction false} FailingTaskDroppedAfterBudget(q: Queue, issues: Issues, parse: EmailParser, key: TaskKey)
    requires key in q && q[key] <= MAX_RETRIES
    requires parse(key.email) == Some(SubscriberEmail(key.email)) && key.issueId in issues
    ensures RepeatFailing(q, issues, parse, key, (MAX_RETRIES as int - q[key] as int) + 1) == q - {key}
    decreases MAX_RETRIES as int - q[key] as int
  {
    var q1 := TryExecuteTask(q, issues, parse, FailingSend(key)).queue;
    if q[key] == MAX_RETRIES {
      assert q1 == q - {key};
    } else {
      assert q1 == q[key := q[key] + 1];
      assert q1 - {key} == q - {key};
      FailingTaskDroppedAfterBudget(q1, issues, parse, key);
    }
  }
}

=== FILE: http.dfy ===
/** The slice of actix-web that the handlers observably produce. */
module Http {

  import opened Primitives

  /** `http::StatusCode`: `from_u16` accepts exactly 100..=999. */
  type StatusCode = x: int | 100 <= x <= 999 witness 200

  const OK: StatusCode := 200
  const SEE_OTHER: StatusCode := 303
  const BAD_REQUEST: StatusCode := 400
  const UNAUTHORIZED: StatusCode := 401
  const INTERNAL_SERVER_ERROR: StatusCode := 500

  /** Header names as `HeaderName` spells them (lower case). */
  const LOCATION: string := "location"
  const WWW_AUTHENTICATE: string := "www-authenticate"

  /** One header line: a name and its raw value bytes. */
  datatype Header = Header(name: string, value: seq<byte>)

  /**
    * A response: status, header list (in iteration order, repeated names
    * kept) and a fully materialised body.
    */
  datatype Response = Response(status: StatusCode, headers: seq<Header>, body: seq<byte>)

  /** An `actix_web::Error` (`e400`, `e500`, a `ResponseError`), seen by the client through its status. */
  datatype HandlerError = HandlerError(status: StatusCode)

  /** A flash message queued for the next page (`FlashMessage::info` / `::error`). */
  datatype Flash = FlashInfo(text: string) | FlashError(text: string)

  /** A response with no headers and an empty body (`HttpResponse::new`, `...().finish()`). */
  function Empty(status: StatusCode): (r: Response)
  {
    Response(status, [], [])
  }

  /** Every value of header `name` in `r`, in order. */
  function HeaderValues(r: Response, name: string): (vs: seq<seq<byte>>)
  {
    HeaderValuesIn(r.headers, name)
  }

  function HeaderValuesIn(hs: seq<Header>, name: string): (vs: seq<seq<byte>>)
    ensures |vs| <= |hs|
    ensures |hs| == 1 ==> vs == (if hs[0].name == name then [hs[0].value] else [])
  {
    if hs == [] then []
    else (if hs[0].name == name then [hs[0].value] else []) + HeaderValuesIn(hs[1..], name)
  }

  /** `see_other(location)`: a 303 whose only header is `Location`, with an empty body. */
  function SeeOther(location: string): (r: Response)
    ensures r.status == SEE_OTHER && r.body == []
    ensures HeaderValues(r, LOCATION) == [Ascii(location)]
    ensures |r.headers| == 1
  {
    Response(SEE_OTHER, [Header(LOCATION, Ascii(location))], [])
  }
}

=== FILE: idempotency_store.dfy ===
/**
  * Idempotency persistence: the `idempotency` table keyed by (user_id,
  * idempotency_key), the flattening of a response into a row, and its
  * reconstruction.
  */
module IdempotencyStore {

  import opened Results
  import opened Primitives
  import opened Http

  type UserId = nat

  /** `HeaderPairRecord`: one stored header, name and raw value bytes. */
  datatype HeaderPairRecord = HeaderPairRecord(name: string, value: seq<byte>)

  /** The response columns of one row: status as `smallint`, header pairs, body bytes. */
  datatype SavedRow = SavedRow(statusCode: i16, headers: seq<HeaderPairRecord>, body: seq<byte>)

  datatype RowKey = RowKey(userId: UserId, idempotencyKey: string)

  /** `idempotency`: at most one row per (user_id, idempotency_key). */
  type Table = map<RowKey, SavedRow>

  datatype StoreError =
    | QueryFailed        // the SELECT failed
    | NegativeStatusCode // the stored status does not convert to u16
    | InvalidStatusCode  // `StatusCode::from_u16` rejected it
    | InsertFailed       // the INSERT failed, including on an existing (user_id, key) row

  /** `status().as_u16() as i16`. */
  function StatusToI16(status: StatusCode): (v: i16)
    ensures StatusFromI16(v) == Ok(status)
  {
    U16AsI16(status)
  }

  /** `StatusCode::from_u16(v.try_into()?)`: negative values and values outside 100..=999 are errors. */
  function StatusFromI16(v: i16): (r: Result<StatusCode, StoreError>)
    ensures r.Ok? <==> 100 <= v <= 999
    ensures r.Ok? ==> r.value as int == v as int
    ensures v < 0 ==> r == Err(NegativeStatusCode)
  {
    match I16TryIntoU16(v)
    case None => Err(NegativeStatusCode)
    case Some(u) => if 100 <= u <= 999 then Ok(u as StatusCode) else Err(InvalidStatusCode)
  }

  /** The header map's iteration mapped to `HeaderPairRecord`s, repeated names included. */
  function FlattenHeaders(hs: seq<Header>): (recs: seq<HeaderPairRecord>)
  {
    seq(|hs|, i requires 0 <= i < |hs| => HeaderPairRecord(hs[i].name, hs[i].value))
  }

  /** The `append_header` loop: each stored pair appended, in order, to the builder's headers. */
  function AppendHeaders(acc: seq<Header>, recs: seq<HeaderPairRecord>): (hs: seq<Header>)
    ensures |hs| == |acc| + |recs|
    ensures hs[..|acc|] == acc
    // Each stored pair becomes one header, name and bytes kept, in stored order.
    ensures forall i :: 0 <= i < |recs| ==> hs[|acc| + i] == Header(recs[i].name, recs[i].value)
    decreases |recs|
  {
    if recs == [] then acc
    else
      var acc' := acc + [Header(recs[0].name, recs[0].value)];
      var hs := AppendHeaders(acc', recs[1..]);
      assert hs[|acc|] == acc'[|acc|];
      assert forall i :: 1 <= i < |recs| ==> recs[i] == recs[1..][i - 1];
      hs
  }

  /** The row `save_response` writes for a response. */
  function EncodeResponse(r: Response): (row: SavedRow)
    // The status is stored as its own number, which reads back as that status.
    ensures row.statusCode as int == r.status as int && StatusFromI16(row.statusCode) == Ok(r.status)
    // One pair per header, in the header list's order, name and value bytes kept; the body verbatim.
    ensures |row.headers| == |r.headers|
    ensures forall i :: 0 <= i < |r.headers| ==> row.headers[i].name == r.headers[i].name && row.headers[i].value == r.headers[i].value
    ensures row.body == r.body
  {
    SavedRow(StatusToI16(r.status), FlattenHeaders(r.headers), r.body)
  }

  /** The response `get_saved_response` rebuilds from a row. */
  function DecodeRow(row: SavedRow): (r: Result<Response, StoreError>)
    ensures r.Ok? <==> 100 <= row.statusCode <= 999
    // A status that does not convert is the conversion's error.
    ensures r.Err? ==> r.error == (if row.statusCode < 0 then NegativeStatusCode else InvalidStatusCode)
    // The rebuilt response has the stored status and body, and one header per stored pair, in order.
    ensures r.Ok? ==> r.value.status as int == row.statusCode as int && r.value.body == row.body
    ensures r.Ok? ==> |r.value.headers| == |row.headers|
                      && forall i :: 0 <= i < |row.headers| ==> r.value.headers[i] == Header(row.headers[i].name, row.headers[i].value)
  {
    match StatusFromI16(row.statusCode)
    case Err(e) => Err(e)
    case Ok(status) => Ok(Response(status, AppendHeaders([], row.headers), row.body))
  }

  /** Replaying flattened headers appends them unchanged: order and multiplicity survive. */
  lemma {:induction false} ReplayFlattened(acc: seq<Header>, hs: seq<Header>)
    ensures AppendHeaders(acc, FlattenHeaders(hs)) == acc + hs
    decreases |hs|
  {
    if hs != [] {
      var recs := FlattenHeaders(hs);
      assert recs[1..] == FlattenHeaders(hs[1..]);
      ReplayFlattened(acc + [hs[0]], hs[1..]);
      assert acc + [hs[0]] + hs[1..] == acc + hs;
    }
  }

  /** Flattening replayed pairs gives back the stored pair list. */
  lemma FlattenReplayed(acc: seq<Header>, recs: seq<HeaderPairRecord>)
    ensures FlattenHeaders(AppendHeaders(acc, recs)) == FlattenHeaders(acc) + recs
  {
  }

  /** Saving then rebuilding gives back the same status, header list and body. */
  lemma SaveThenLoad(r: Response)
    ensures DecodeRow(EncodeResponse(r)) == Ok(r)
  {
    ReplayFlattened([], r.headers);
  }

  /** A row that decodes re-encodes to itself. */
  lemma LoadThenSave(row: SavedRow)
    requires DecodeRow(row).Ok?
    ensures EncodeResponse(DecodeRow(row).value) == row
  {
  }

  /**
    * `get_saved_response`: no row gives `None`; a row gives the response it
    * encodes, or an error when its status does not convert.
    */
  function GetSavedResponse(t: Table, userId: UserId, key: string, queryFails: bool)
    : (r: Result<Option<Response>, StoreError>)
    ensures queryFails ==> r == Err(QueryFailed)
    ensures !queryFails && RowKey(userId, key) !in t ==> r == Ok(None)
    ensures r.Ok? && r.value.Some? ==>
              RowKey(userId, key) in t && EncodeResponse(r.value.value) == t[RowKey(userId, key)]
    ensures !queryFails && RowKey(userId, key) in t && 100 <= t[RowKey(userId, key)].statusCode <= 999 ==>
              r.Ok? && r.value.Some?
    ensures r.Err? && !queryFails ==>
              RowKey(userId, key) in t && !(100 <= t[RowKey(userId, key)].statusCode <= 999)
    // A stored status that is negative, or outside 100..999, is an error and never reads as "nothing saved".
    ensures !queryFails && RowKey(userId, key) in t && !(100 <= t[RowKey(userId, key)].statusCode <= 999) ==>
              r == Err(if t[RowKey(userId, key)].statusCode < 0 then NegativeStatusCode else InvalidStatusCode)
  {
    var rk := RowKey(userId, key);
    if queryFails then Err(QueryFailed)
    else if rk !in t then Ok(None)
    else
      match DecodeRow(t[rk])
      case Err(e) => Err(e)
      case Ok(resp) => LoadThenSave(t[rk]); Ok(Some(resp))
  }

  datatype SaveOutcome = SaveOutcome(result: Result<Response, StoreError>, table: Table)

  /**
    * `save_response`: INSERT the encoded response under (user_id, key) and
    * hand back the same response.
    */
  function SaveResponse(t: Table, userId: UserId, key: string, resp: Response, insertFails: bool)
    : (r: SaveOutcome)
    ensures r.result.Ok? <==> !insertFails && RowKey(userId, key) !in t
    ensures r.result.Ok? ==> r.result.value == resp
    ensures r.result.Ok? ==> GetSavedResponse(r.table, userId, key, false) == Ok(Some(resp))
    ensures r.result.Err? ==> r.table == t
    ensures forall u, k :: RowKey(u, k) != RowKey(userId, key) ==>
              GetSavedResponse(r.table, u, k, false) == GetSavedResponse(t, u, k, false)
  {
    var rk := RowKey(userId, key);
    if insertFails || rk in t then SaveOutcome(Err(InsertFailed), t)
    else
      SaveThenLoad(resp);
      SaveOutcome(Ok(resp), t[rk := EncodeResponse(resp)])
  }
}

=== FILE: login.dfy ===
/** The `login` handler: credential outcome to redirect, flash message and `LoginError`. */
module Login {

  import opened Results
  import opened Primitives
  import opened Http
  import opened Password

  datatype LoginError = AuthFailed | Unexpected

  const HOME: string := "/"
  const LOGIN_PAGE: string := "/login"

  /** The `match` in `login`: which `LoginError` an `AuthError` becomes. */
  function LoginErrorOf(e: AuthError): (le: LoginError)
  {
    match e
    case InvalidCredentials => AuthFailed
    case UnexpectedError => Unexpected
  }

  /** `LoginError`'s `Display`. */
  function LoginErrorMessage(e: LoginError): (message: string)
  {
    match e
    case AuthFailed => "Authentication failed"
    case Unexpected => "Something went wrong"
  }

  /** `LoginError::status_code`: every variant redirects. */
  function LoginErrorStatus(e: LoginError): (status: StatusCode)
  {
    SEE_OTHER
  }

  /** The response the client gets, whether the user is now logged in, and the flash message queued. */
  datatype LoginReply = LoginReply(response: Response, succeeded: bool, flash: Option<Flash>)

  /** `login`. */
  function HandleLogin(users: Users, creds: Credentials, verify: Verifier, env: AuthEnv): (r: LoginReply)
    ensures r.succeeded <==>
              !env.queryFails && !env.joinFails && creds.username in users
              && verify(users[creds.username].passwordHash, creds.password) == Matches
    ensures r.succeeded ==> r.response == SeeOther(HOME) && r.flash == None
    // Every failure is a 303 back to the login page.
    ensures !r.succeeded ==> r.response == SeeOther(LOGIN_PAGE) && r.flash.Some? && r.flash.value.FlashError?
    ensures ValidateCredentials(users, creds, verify, env).result == Err(InvalidCredentials) ==>
              r.flash == Some(FlashError("Authentication failed"))
    ensures ValidateCredentials(users, creds, verify, env).result == Err(UnexpectedError) ==>
              r.flash == Some(FlashError("Something went wrong"))
  {
    match ValidateCredentials(users, creds, verify, env).result
    case Ok(_) => LoginReply(Response(SEE_OTHER, [Header(LOCATION, Ascii(HOME))], []), true, None)
    case Err(authError) =>
      var e := LoginErrorOf(authError);
      LoginReply(Response(LoginErrorStatus(e), [Header(LOCATION, Ascii(LOGIN_PAGE))], []), false,
                 Some(FlashError(LoginErrorMessage(e))))
  }
}

=== FILE: newsletters.dfy ===
/** The older JSON `publish_newsletter`: fan-out with no validation and no idempotency. */
module Newsletters {

  import opened Results
  import opened Http
  import opened Subscribers

  datatype BodyData = BodyData(title: string, html: string, text: string)

  /** `PublishError`: every failure is unexpected. */
  datatype PublishError = UnexpectedError

  /**
    * `PublishError::status_code`. Only the status is overridden, so the body
    * and headers of an error reply are actix's default and are not modelled.
    */
  function PublishErrorStatus(e: PublishError): (status: StatusCode)
  {
    match e
    case UnexpectedError => INTERNAL_SERVER_ERROR
  }

  /** The reply, and the emails handed to the email client in order. */
  datatype PublishOutcome = PublishOutcome(reply: Result<Response, PublishError>, attempted: seq<Delivery>)

  /** The emails this body would send over these rows. */
  function Mailing(body: BodyData, rows: seq<Subscription>, parse: EmailParser): (ds: seq<Delivery>)
  {
    IssueDeliveries(rows, parse, body.title, body.html, body.text)
  }

  /** `publish_newsletter` over the `subscriptions` rows; `send` is the email client's answer per email. */
  function PublishNewsletter(body: BodyData, rows: seq<Subscription>, parse: EmailParser, send: Sender, queryFails: bool)
    : (r: PublishOutcome)
    ensures queryFails ==> r == PublishOutcome(Err(UnexpectedError), [])
    // Emails go to parsed confirmed addresses in row order, carrying this body's title and content.
    ensures r.attempted <= Mailing(body, rows, parse)
    // Every email before the last one attempted was sent successfully.
    ensures SentBeforeLast(r.attempted, send)
    ensures r.reply.Ok? <==> !queryFails && AllSent(Mailing(body, rows, parse), send)
    ensures r.reply.Ok? ==> r.reply.value == Empty(OK) && r.attempted == Mailing(body, rows, parse)
    ensures r.reply.Err? ==> PublishErrorStatus(r.reply.error) == INTERNAL_SERVER_ERROR
    // The loop stops at the first failed send.
    ensures r.reply.Err? && !queryFails ==> |r.attempted| > 0 && !send(r.attempted[|r.attempted| - 1])
  {
    match GetConfirmedSubscribers(rows, parse, queryFails)
    case Err(_) => PublishOutcome(Err(UnexpectedError), [])
    case Ok(subs) =>
      assert Deliverable(subs) == Recipients(rows, parse);
      var sent := FanOut(subs, body.title, body.html, body.text, send);
      if sent.failed then PublishOutcome(Err(UnexpectedError), sent.attempted)
      else PublishOutcome(Ok(Empty(OK)), sent.attempted)
  }
}

=== FILE: password.dfy ===
/**
  * Credential checks: `validate_credentials`, the Argon2 verification's
  * result mapping, `change_password`, and `AuthError`'s HTTP response.
  */
module Password {

  import opened Results
  import opened Primitives
  import opened Http

  type UserId = nat

  /** The columns of `users` read for a username. */
  datatype StoredCredentials = StoredCredentials(userId: UserId, passwordHash: string)

  /** `users`, keyed by username. */
  type Users = map<string, StoredCredentials>

  datatype Credentials = Credentials(username: string, password: string)

  datatype AuthError = InvalidCredentials | UnexpectedError

  /** What Argon2 says about a (PHC hash string, candidate password) pair. */
  datatype HashCheck = Matches | DoesNotMatch | UnparsableHash

  type Verifier = (string, string) -> HashCheck

  /** Verified against when the username is unknown, so that the cost is the same. */
  const FALLBACK_PASSWORD_HASH: string :=
    "$argon2id$v=19$m=15000,t=2,p=1$gZiV/M1gPc22ElAH/JhHw$CWOrkoo7oJBQ/iyh7uJ0LO2aLEfrHwTWllSAxT0zRno"

  const BASIC_REALM: string := "Basic realm=\"publish\""

  /** Whether the credentials query fails, and whether joining the blocking verification task fails. */
  datatype AuthEnv = AuthEnv(queryFails: bool, joinFails: bool)

  /** `get_stored_credentials`. */
  function GetStoredCredentials(users: Users, username: string, queryFails: bool)
    : (r: Result<Option<StoredCredentials>, AuthError>)
    ensures queryFails ==> r == Err(UnexpectedError)
    ensures !queryFails ==> r.Ok? && (r.value.Some? <==> username in users)
    ensures r.Ok? && r.value.Some? ==> r.value.value == users[username]
  {
    if queryFails then Err(UnexpectedError)
    else if username in users then Ok(Some(users[username]))
    else Ok(None)
  }

  /** `verify_password_hash`: an unparsable hash is unexpected, a mismatch is invalid credentials. */
  function VerifyPasswordHash(expected: string, candidate: string, verify: Verifier): (r: Result<(), AuthError>)
    ensures r.Ok? <==> verify(expected, candidate) == Matches
    ensures r == Err(UnexpectedError) <==> verify(expected, candidate) == UnparsableHash
    ensures r == Err(InvalidCredentials) <==> verify(expected, candidate) == DoesNotMatch
  {
    match verify(expected, candidate)
    case UnparsableHash => Err(UnexpectedError)
    case DoesNotMatch => Err(InvalidCredentials)
    case Matches => Ok(())
  }

  /** The outcome, and the hash handed to the verification task (none when it was never started). */
  datatype Validation = Validation(result: Result<UserId, AuthError>, verifiedAgainst: Option<string>)

  /** `validate_credentials`. */
  function ValidateCredentials(users: Users, creds: Credentials, verify: Verifier, env: AuthEnv): (r: Validation)
    ensures env.queryFails ==> r == Validation(Err(UnexpectedError), None)
    // Verification always runs once the query succeeded, against the fallback hash for an unknown user.
    ensures !env.queryFails ==>
              r.verifiedAgainst == Some(if creds.username in users then users[creds.username].passwordHash
                                        else FALLBACK_PASSWORD_HASH)
    ensures r.result.Ok? <==>
              !env.queryFails && !env.joinFails && creds.username in users
              && verify(users[creds.username].passwordHash, creds.password) == Matches
    ensures r.result.Ok? ==> r.result.value == users[creds.username].userId
    // An unknown user is never let in, even when the fallback hash verifies.
    ensures (!env.queryFails && !env.joinFails && creds.username !in users
             && verify(FALLBACK_PASSWORD_HASH, creds.password) != UnparsableHash)
              ==> r.result == Err(InvalidCredentials)
    // A known user with a wrong password is invalid credentials, not an unexpected error.
    ensures (!env.queryFails && !env.joinFails && creds.username in users
             && verify(users[creds.username].passwordHash, creds.password) == DoesNotMatch)
              ==> r.result == Err(InvalidCredentials)
    ensures r.result == Err(InvalidCredentials) ==>
              !env.queryFails && !env.joinFails
              && (creds.username !in users || verify(users[creds.username].passwordHash, creds.password) == DoesNotMatch)
    ensures (!env.queryFails && creds.username in users
             && verify(users[creds.username].passwordHash, creds.password) == UnparsableHash)
              ==> r.result == Err(UnexpectedError)
  {
    match GetStoredCredentials(users, creds.username, env.queryFails)
    case Err(e) => Validation(Err(e), None)
    case Ok(stored) =>
      var expected := if stored.Some? then stored.value.passwordHash else FALLBACK_PASSWORD_HASH;
      var verified := Some(expected);
      if env.joinFails then Validation(Err(UnexpectedError), verified)
      else
        match VerifyPasswordHash(expected, creds.password, verify)
        case Err(e) => Validation(Err(e), verified)
        case Ok(_) =>
          match stored
          case None => Validation(Err(InvalidCredentials), verified)
          case Some(s) => Validation(Ok(s.userId), verified)
  }

  /** `AuthError::error_response`. */
  function AuthErrorResponse(e: AuthError): (r: Response)
    ensures e == UnexpectedError ==> r == Empty(INTERNAL_SERVER_ERROR)
    ensures e == InvalidCredentials ==>
              r.status == UNAUTHORIZED && r.body == [] && |r.headers| == 1
              && HeaderValues(r, WWW_AUTHENTICATE) == [Ascii(BASIC_REALM)]
  {
    match e
    case UnexpectedError => Empty(INTERNAL_SERVER_ERROR)
    case InvalidCredentials => Response(UNAUTHORIZED, [Header(WWW_AUTHENTICATE, Ascii(BASIC_REALM))], [])
  }

  /** Whether joining the hashing task fails, and whether the UPDATE fails. */
  datatype ChangeEnv = ChangeEnv(joinFails: bool, updateFails: bool)

  datatype ChangeError = HashingFailed | UpdateFailed

  /** The outcome, the table afterwards, and whether the UPDATE was issued. */
  datatype PasswordChange = PasswordChange(result: Result<(), ChangeError>, users: Users, updateIssued: bool)

  /**
    * `change_password`. `computed` is what `compute_password_hash` produced
    * (a fresh salt makes it an input here); `None` is a hashing error.
    */
  function ChangePassword(users: Users, userId: UserId, computed: Option<string>, env: ChangeEnv): (r: PasswordChange)
    // A hashing failure stops before the UPDATE is issued.
    ensures (env.joinFails || computed.None?) ==> r == PasswordChange(Err(HashingFailed), users, false)
    ensures r.updateIssued <==> !env.joinFails && computed.Some?
    ensures r.result.Ok? <==> !env.joinFails && computed.Some? && !env.updateFails
    ensures r.result.Err? ==> r.users == users
    ensures r.users.Keys == users.Keys
    ensures r.result.Ok? ==>
              forall name :: name in users ==>
                r.users[name].userId == users[name].userId
                && r.users[name].passwordHash == (if users[name].userId == userId then computed.value
                                                  else users[name].passwordHash)
  {
    if env.joinFails || computed.None? then PasswordChange(Err(HashingFailed), users, false)
    else if env.updateFails then PasswordChange(Err(UpdateFailed), users, true)
    else
      var updated := map name | name in users ::
        if users[name].userId == userId then users[name].(passwordHash := computed.value) else users[name];
      PasswordChange(Ok(()), updated, true)
  }

  /**
    * After a successful password change, that user logs in exactly with the
    * passwords the new hash verifies, and every other user's outcome is as before.
    */
  lemma ChangedPasswordIsTheOneChecked(
    users: Users, userId: UserId, newHash: string, cenv: ChangeEnv,
    creds: Credentials, verify: Verifier, aenv: AuthEnv)
    requires ChangePassword(users, userId, Some(newHash), cenv).result.Ok?
    ensures var changed := ChangePassword(users, userId, Some(newHash), cenv).users;
            && (creds.username in users && users[creds.username].userId == userId
                && !aenv.queryFails && !aenv.joinFails
                ==> (ValidateCredentials(changed, creds, verify, aenv).result.Ok? <==> verify(newHash, creds.password) == Matches))
            && (creds.username !in users || users[creds.username].userId != userId
                ==> ValidateCredentials(changed, creds, verify, aenv) == ValidateCredentials(users, creds, verify, aenv))
  {
  }
}

=== FILE: primitives.dfy ===
/** Fixed-width integers of the source, written out explicitly. */
module Primitives {

  import opened Results

  /** A byte (`u8`), the element type of header values and bodies. */
  newtype byte = x: int | 0 <= x < 0x100

  /** A signed 16-bit integer (`i16`, Postgres `smallint`). */
  newtype i16 = x: int | -0x8000 <= x < 0x8000

  /** `u as i16` for a `u16` value: the two's-complement reinterpretation. */
  function U16AsI16(u: int): (r: i16)
    requires 0 <= u < 0x1_0000
    ensures (r as int - u) % 0x1_0000 == 0
    ensures u < 0x8000 ==> r as int == u
  {
    if u < 0x8000 then u as i16 else (u - 0x1_0000) as i16
  }

  /** `u16::try_from(v)` for an `i16` value: it fails on every negative value. */
  function I16TryIntoU16(v: i16): (r: Option<int>)
    ensures r.Some? <==> v >= 0
    ensures r.Some? ==> 0 <= r.value < 0x1_0000 && r.value == v as int
  {
    if v < 0 then None else Some(v as int)
  }

  /** The bytes of a string literal that is pure ASCII. */
  function Ascii(s: string): (b: seq<byte>)
    ensures |b| == |s|
  {
    seq(|s|, i requires 0 <= i < |s| => (s[i] as int % 0x100) as byte)
  }
}

=== FILE: results.dfy ===
/** Failure-compatible wrappers shared by every component of the model. */
module Results {

  /** A value that may be absent (Rust's `Option`). */
  datatype Option<+T> = None | Some(value: T)

  /** A value or an error (Rust's `Result`). */
  datatype Result<+T, +E> = Ok(value: T) | Err(error: E)
}

=== FILE: subscribers.dfy ===
/**
  * The `subscriptions` table as the publish handlers and the confirmation
  * handler see it, the confirmed-subscriber query, and the send loop shared
  * by both publish handlers.
  */
module Subscribers {

  import opened Results

  type SubscriberId = nat

  /** The status value that marks a subscription as confirmed. */
  const CONFIRMED: string := "confirmed"

  /** One row of `subscriptions`. */
  datatype Subscription = Subscription(id: SubscriberId, email: string, status: string)

  /** A stored address accepted by `SubscriberEmail::parse`; `to_string` gives `address`. */
  datatype SubscriberEmail = SubscriberEmail(address: string)

  /** `SubscriberEmail::parse`, whose rules are not part of this model. */
  type EmailParser = string -> Option<SubscriberEmail>

  /** One email handed to the email client: recipient, title, HTML body, text body. */
  datatype Delivery = Delivery(to: SubscriberEmail, title: string, htmlContent: string, textContent: string)

  /** The email client's answer for one email: true when `send_email` returned `Ok`. */
  type Sender = Delivery -> bool

  /** Query failure of `get_confirmed_subscribers`. */
  datatype QueryError = SubscriberQueryFailed

  /**
    * The `email` column of the rows `SELECT email FROM subscriptions WHERE
    * status = 'confirmed'` returns, in scan order.
    */
  function ConfirmedEmails(rows: seq<Subscription>): (r: seq<string>)
    ensures |r| <= |rows|
    ensures forall i :: 0 <= i < |rows| && rows[i].status == CONFIRMED ==> rows[i].email in r
    ensures forall e :: e in r ==> exists i :: 0 <= i < |rows| && rows[i].status == CONFIRMED && rows[i].email == e
  {
    if rows == [] then []
    else
      var rest := ConfirmedEmails(rows[1..]);
      assert forall i :: 1 <= i < |rows| ==> rows[i] == rows[1..][i - 1];
      if rows[0].status == CONFIRMED then [rows[0].email] + rest else rest
  }

  /** The query keeps the table's order: it distributes over concatenation. */
  lemma {:induction false} ConfirmedEmailsAppend(a: seq<Subscription>, b: seq<Subscription>)
    ensures ConfirmedEmails(a + b) == ConfirmedEmails(a) + ConfirmedEmails(b)
  {
    if a == [] {
      assert a + b == b;
    } else {
      assert (a + b)[1..] == a[1..] + b;
      ConfirmedEmailsAppend(a[1..], b);
    }
  }

  /**
    * `get_confirmed_subscribers`: each confirmed row becomes exactly one parse
    * result, in row order; a failing query is an error.
    */
  function GetConfirmedSubscribers(rows: seq<Subscription>, parse: EmailParser, queryFails: bool)
    : (r: Result<seq<Option<SubscriberEmail>>, QueryError>)
    ensures r.Err? <==> queryFails
    ensures r.Ok? ==> |r.value| == |ConfirmedEmails(rows)|
    ensures r.Ok? ==> forall i :: 0 <= i < |r.value| ==> r.value[i] == parse(ConfirmedEmails(rows)[i])
  {
    if queryFails then Err(SubscriberQueryFailed)
    else
      var emails := ConfirmedEmails(rows);
      Ok(seq(|emails|, i requires 0 <= i < |emails| => parse(emails[i])))
  }

  /** The addresses that parsed, in order and with repeats: exactly those a publish may send to. */
  function Deliverable(subs: seq<Option<SubscriberEmail>>): (r: seq<SubscriberEmail>)
    ensures |r| <= |subs|
    ensures forall e :: e in r <==> Some(e) in subs
    ensures subs == [] ==> r == []
    ensures |subs| == 1 ==> r == (if subs[0].Some? then [subs[0].value] else [])
  {
    if subs == [] then []
    else
      var rest := Deliverable(subs[1..]);
      assert subs == [subs[0]] + subs[1..];
      if subs[0].Some? then [subs[0].value] + rest else rest
  }

  /** Skipping unparsed entries keeps order and multiplicity: it distributes over concatenation. */
  lemma {:induction false} DeliverableAppend(a: seq<Option<SubscriberEmail>>, b: seq<Option<SubscriberEmail>>)
    ensures Deliverable(a + b) == Deliverable(a) + Deliverable(b)
  {
    if a == [] {
      assert a + b == b;
    } else {
      assert (a + b)[1..] == a[1..] + b;
      DeliverableAppend(a[1..], b);
    }
  }

  /** The addresses to which a publish over these table rows may send. */
  function Recipients(rows: seq<Subscription>, parse: EmailParser): (to: seq<SubscriberEmail>)
  {
    var emails := ConfirmedEmails(rows);
    Deliverable(seq(|emails|, i requires 0 <= i < |emails| => parse(emails[i])))
  }

  /** The same issue addressed to each recipient in turn. */
  function Addressed(to: seq<SubscriberEmail>, title: string, html: string, text: string): (ds: seq<Delivery>)
  {
    seq(|to|, i requires 0 <= i < |to| => Delivery(to[i], title, html, text))
  }

  /** The emails a publish of this issue over these rows may send, in order. */
  function IssueDeliveries(rows: seq<Subscription>, parse: EmailParser, title: string, html: string, text: string)
    : (ds: seq<Delivery>)
  {
    Addressed(Recipients(rows, parse), title, html, text)
  }

  /** The email client accepted every email of `ds`. */
  predicate AllSent(ds: seq<Delivery>, send: Sender)
  {
    forall d :: d in ds ==> send(d)
  }

  /** The email client accepted every email of `ds` but possibly the last. */
  predicate SentBeforeLast(ds: seq<Delivery>, send: Sender)
  {
    forall i :: 0 <= i < |ds| - 1 ==> send(ds[i])
  }

  /** Sending one more email first keeps the prefix relation. */
  lemma PrefixCons(d: Delivery, a: seq<Delivery>, b: seq<Delivery>)
    requires a <= b
    ensures [d] + a <= [d] + b
  {
  }

  /** All of `[d] + ds` was accepted exactly when `d` and all of `ds` were. */
  lemma AllSentCons(d: Delivery, ds: seq<Delivery>, send: Sender)
    ensures AllSent([d] + ds, send) <==> send(d) && AllSent(ds, send)
  {
  }

  /** An accepted first email extends "all but the last accepted" to the longer list. */
  lemma SentBeforeLastCons(d: Delivery, ds: seq<Delivery>, send: Sender)
    requires send(d) && SentBeforeLast(ds, send)
    ensures SentBeforeLast([d] + ds, send)
  {
  }

  /** What the send loop did: the emails it tried, in order, and whether it stopped on a failure. */
  datatype FanOutResult = FanOutResult(attempted: seq<Delivery>, failed: bool)

  /**
    * Sending `ds` in order until the email client refuses one: the emails
    * tried, and whether the loop stopped on a failure.
    */
  function SendLoop(ds: seq<Delivery>, send: Sender): (r: FanOutResult)
    ensures r.attempted <= ds
    ensures !r.failed ==> r.attempted == ds
    ensures r.failed ==> |r.attempted| > 0 && !send(r.attempted[|r.attempted| - 1])
    ensures SentBeforeLast(r.attempted, send)
    ensures r.failed <==> !AllSent(ds, send)
  {
    if ds == [] then FanOutResult([], false)
    else
      assert ds == [ds[0]] + ds[1..];
      AllSentCons(ds[0], ds[1..], send);
      if !send(ds[0]) then FanOutResult([ds[0]], true)
      else
        var rest := SendLoop(ds[1..], send);
        SentBeforeLastCons(ds[0], rest.attempted, send);
        PrefixCons(ds[0], rest.attempted, ds[1..]);
        assert rest.failed ==> ([ds[0]] + rest.attempted)[|rest.attempted|] == rest.attempted[|rest.attempted| - 1];
        FanOutResult([ds[0]] + rest.attempted, rest.failed)
  }

  /**
    * The `for subscriber in subscribers` loop of both publish handlers:
    * unparsed entries are skipped (they only log), the issue is sent to each
    * parsed one in order, and the first failed send ends the loop.
    */
  function FanOut(subs: seq<Option<SubscriberEmail>>, title: string, html: string, text: string, send: Sender)
    : (r: FanOutResult)
    ensures r.attempted <= Addressed(Deliverable(subs), title, html, text)
    ensures !r.failed ==> r.attempted == Addressed(Deliverable(subs), title, html, text)
    ensures r.failed ==> |r.attempted| > 0 && !send(r.attempted[|r.attempted| - 1])
    ensures SentBeforeLast(r.attempted, send)
    ensures r.failed <==> !AllSent(Addressed(Deliverable(subs), title, html, text), send)
  {
    SendLoop(Addressed(Deliverable(subs), title, html, text), send)
  }
}

=== FILE: subscriptions_confirm.dfy ===
/** `GET /subscriptions/confirm`: token lookup, then marking the subscriber confirmed. */
module SubscriptionsConfirm {

  import opened Results
  import opened Http
  import opened Subscribers

  /** `subscription_tokens`: token to subscriber id. */
  type Tokens = map<string, SubscriberId>

  /** Whether the token query fails, and whether the UPDATE fails. */
  datatype ConfirmEnv = ConfirmEnv(lookupFails: bool, updateFails: bool)

  datatype DbError = DbError

  /**
    * The reply, and the `subscriptions` rows afterwards. A reply is either the
    * handler's own response or the query extractor's rejection, of which only
    * the status is modelled.
    */
  datatype ConfirmOutcome = ConfirmOutcome(reply: Result<Response, HandlerError>, subscriptions: seq<Subscription>)
  {
    /** The status the client sees. */
    function Status(): StatusCode
    {
      match reply
      case Ok(resp) => resp.status
      case Err(e) => e.status
    }
  }

  /** `get_subscriber_id_from_token`. */
  function GetSubscriberIdFromToken(tokens: Tokens, token: string, lookupFails: bool)
    : (r: Result<Option<SubscriberId>, DbError>)
    ensures r.Err? <==> lookupFails
    ensures r.Ok? ==> (r.value.Some? <==> token in tokens)
    ensures r.Ok? && r.value.Some? ==> r.value.value == tokens[token]
  {
    if lookupFails then Err(DbError)
    else if token in tokens then Ok(Some(tokens[token]))
    else Ok(None)
  }

  /** The rows after `UPDATE subscriptions SET status = 'confirmed' WHERE id = $1`. */
  function MarkConfirmed(subs: seq<Subscription>, id: SubscriberId): (r: seq<Subscription>)
  {
    seq(|subs|, i requires 0 <= i < |subs| =>
      if subs[i].id == id then subs[i].(status := CONFIRMED) else subs[i])
  }

  /** `confirm_subscriber`: exactly the rows with this id become confirmed; nothing else changes. */
  function ConfirmSubscriber(subs: seq<Subscription>, id: SubscriberId, updateFails: bool)
    : (r: Result<seq<Subscription>, DbError>)
    ensures r.Err? <==> updateFails
    ensures r.Ok? ==> |r.value| == |subs|
    ensures r.Ok? ==> forall i :: 0 <= i < |subs| ==>
              r.value[i].id == subs[i].id && r.value[i].email == subs[i].email
              && (subs[i].id == id ==> r.value[i].status == CONFIRMED)
              && (subs[i].id != id ==> r.value[i] == subs[i])
  {
    if updateFails then Err(DbError) else Ok(MarkConfirmed(subs, id))
  }

  /**
    * `confirm`; `token` is the `subscription_token` query parameter, whose
    * absence the query extractor rejects with 400.
    */
  function Confirm(subs: seq<Subscription>, tokens: Tokens, token: Option<string>, env: ConfirmEnv)
    : (r: ConfirmOutcome)
    ensures token.None? ==> r == ConfirmOutcome(Err(HandlerError(BAD_REQUEST)), subs)
    ensures token.Some? && env.lookupFails ==> r == ConfirmOutcome(Ok(Empty(INTERNAL_SERVER_ERROR)), subs)
    ensures token.Some? && !env.lookupFails && token.value !in tokens ==> r == ConfirmOutcome(Ok(Empty(UNAUTHORIZED)), subs)
    ensures token.Some? && !env.lookupFails && token.value in tokens && env.updateFails ==>
              r == ConfirmOutcome(Ok(Empty(INTERNAL_SERVER_ERROR)), subs)
    ensures r.Status() == OK <==> token.Some? && !env.lookupFails && token.value in tokens && !env.updateFails
    ensures r.Status() != OK ==> r.subscriptions == subs
    ensures r.Status() == OK ==>
              r.reply == Ok(Empty(OK)) && ConfirmSubscriber(subs, tokens[token.value], false) == Ok(r.subscriptions)
  {
    match token
    case None => ConfirmOutcome(Err(HandlerError(BAD_REQUEST)), subs)
    case Some(t) =>
      match GetSubscriberIdFromToken(tokens, t, env.lookupFails)
      case Err(_) => ConfirmOutcome(Ok(Empty(INTERNAL_SERVER_ERROR)), subs)
      case Ok(None) => ConfirmOutcome(Ok(Empty(UNAUTHORIZED)), subs)
      case Ok(Some(id)) =>
        match ConfirmSubscriber(subs, id, env.updateFails)
        case Err(_) => ConfirmOutcome(Ok(Empty(INTERNAL_SERVER_ERROR)), subs)
        case Ok(updated) => ConfirmOutcome(Ok(Empty(OK)), updated)
  }

  /** Confirming again with the same token changes nothing and answers 200 again. */
  lemma ConfirmTwice(subs: seq<Subscription>, tokens: Tokens, token: string, env: ConfirmEnv, env2: ConfirmEnv)
    requires Confirm(subs, tokens, Some(token), env).Status() == OK
    requires !env2.lookupFails && !env2.updateFails
    ensures var first := Confirm(subs, tokens, Some(token), env);
            Confirm(first.subscriptions, tokens, Some(token), env2) == first
  {
  }
}
